=== FILE: README.md ===
# YouTube downloader: queue, batch and file-name logic in Dafny

This project models the sequential logic under the Tk window of a small
YouTube downloader (`src/main.py`):

- the file-name sanitiser `sanitize_filename`, a regular-expression filter
  followed by a space-to-underscore map (module `Sanitize`);
- the link queue, the parallel lists `links` and `link_rows` changed by
  `add_link`, `remove_link` and `clear_links` (module `LinkQueue`);
- the per-item options dictionary handed to the downloader: output
  template, format selector chosen by media type and resolution label, and
  post-processors (modules `DownloadOptions` and `Decimal`);
- the batch loop of `process_downloads` with its `(index, total)` progress
  reports (module `Batch`);
- the application state the button handlers change, including the
  `download_all` guard on the save location and the final `clear_links`
  (module `App`).

Python's `\w` and `\s` are Unicode classes; they are not spelled out but
are the two predicates of a `Sanitize.CharClasses` value, of which only
"`'_'` is a word character and `' '` is whitespace" is assumed where a
property needs it (idempotence). Each row widget is a `Row(id, link)`:
`id` stands for the object's identity (list removal of a row compares
identity) and `link` is the URL its REMOVE button's lambda captured.

The external download is a parameter `fetch` of type
`(nat, string, YdlOptions) -> bool`: for the item at a 1-based index, its
link and its options, whether `YoutubeDL(options).download([link])`
returns normally. Every property of the batch holds for every such
function, so nothing is assumed about the network. The overall progress
`index/total` is kept as the pair `Report(index, total)`.

Two behaviours of the code are worth stating plainly:

- `remove_link` with a row that is no longer in `link_rows` raises
  `ValueError`, after the first matching link has already been taken out
  of `links`. `LinkQueue.Remove` returns `RowMissing` with that partial
  change. For a row that is on screen this cannot happen
  (`LinkQueue.RemoveKeepsValid`).
- At the end of a batch the status line reads "All downloads completed!"
  whatever the number of failed items; no success count is reported.

`sanitize_filename` is defined but never called: the output template is
the downloader's own `%(title)s.%(ext)s`.

One consequence of removing links by value and rows by identity: with the
same URL queued twice, pressing the REMOVE button of the later row takes
out the earlier entry of `links`, so the order of `links` (the download
order) no longer matches the rows on screen
(`LinkQueue.DuplicateRemovalMisaligns`). What does hold is that the rows'
captured links and `links` stay equal as multisets (`LinkQueue.Valid`),
and positions stay matched when the first row with a link is removed
(`LinkQueue.RemoveFirstRowKeepsAligned`). Which URLs get downloaded is
unaffected.

## Model

| member | source | states |
|---|---|---|
| Sanitize.StripUnsafe | src/main.py:10 | `re.sub(r'[^\w\s-]', '', s)` never lengthens, leaves only word, whitespace or '-' characters, and leaves a string made only of those unchanged |
| Sanitize.ReplaceSpaces | src/main.py:10 | `.replace(' ', '_')` keeps the length, turns every space into '_', keeps every other character in place |
| Sanitize.SanitizeFilename | src/main.py:9-10 | the sanitised name is no longer than the input, holds no ' ', and every character is a word character, whitespace other than ' ', '-' or '_' |
| Sanitize.StripConcat | src/main.py:10 | the deletion step maps a concatenation to the concatenation of the results |
| Sanitize.SanitizeConcat | src/main.py:10 | sanitising `a + b` gives sanitised `a` followed by sanitised `b`: the work is character by character and kept characters stay in order |
| Sanitize.SanitizeChar | src/main.py:10 | a single character outside the classes is dropped, a space becomes "_", any other kept character is left alone |
| Sanitize.OtherWhitespaceSurvives | src/main.py:10 | whitespace other than ' ' (a tab, a newline) passes through unchanged |
| Sanitize.FixedPoint | src/main.py:10 | a name is left unchanged exactly when it has no ' ' and only word, whitespace or '-' characters (both directions) |
| Sanitize.Idempotent | src/main.py:10 | sanitising twice equals sanitising once |
| Sanitize.Example | src/main.py:10 | "a b?" becomes "a_b" when 'a' and 'b' are word characters and '?' is deleted |
| Decimal.ParseNat | src/main.py:248 | `int(s)` restricted to plain decimal digits: a value is produced exactly for non-empty ASCII digit strings (no length limit) |
| Decimal.NatToString | src/main.py:249 | the decimal rendering of an integer is a non-empty digit string without a leading zero |
| Decimal.ParseRendered | src/main.py:248-249 | reading back the rendering of `n` gives `n` |
| Decimal.RenderParsed | src/main.py:248-249 | a digit string without a leading zero is the rendering of its value (the other direction of the round trip) |
| Decimal.RenderInjective | src/main.py:249 | distinct integers render to distinct strings |
| LinkQueue.Empty | src/main.py:163-164 | the queue starts with no links and no rows, satisfying the queue invariant |
| LinkQueue.Add | src/main.py:201-215 | an empty link changes nothing; otherwise one link and one fresh row are appended at the end, earlier entries untouched, duplicates allowed; the invariant and position matching are kept |
| LinkQueue.RemoveFirst | src/main.py:221 | `list.remove(x)` deletes the first occurrence of `x` and keeps every other element in its order; one `x` fewer, one element shorter |
| LinkQueue.Remove | src/main.py:219-223 | the first occurrence of the link is removed when present and `links` is untouched otherwise; the row is removed exactly when it is present, the other rows keeping their order, and otherwise the call raises with `link_rows` unchanged |
| LinkQueue.Clear | src/main.py:272-276 | both lists end empty; row identities already handed out stay used |
| LinkQueue.RemoveKeepsValid | src/main.py:213-223 | pressing REMOVE on a row of a valid queue never raises, removes one link, and keeps one row per link with matching multisets |
| LinkQueue.AddThenRemove | src/main.py:201-223 | adding a link and pressing its REMOVE button gives back the same rows and the same links (as a multiset, and position by position when the link was not queued before) |
| LinkQueue.RemoveFirstRowKeepsAligned | src/main.py:219-223 | removing through the first row that carries its link keeps `links` and rows matched position by position |
| LinkQueue.DuplicateRemovalMisaligns | src/main.py:219-223 | queueing "a", "b", "a" and removing the second "a" row leaves links ["b", "a"] beside rows for "a", "b" |
| DownloadOptions.ResolutionOf | src/main.py:248 | `int(label[:-1])` read on plain digits: a value is produced exactly when the label minus its last character is a non-empty ASCII digit string (no length limit) |
| DownloadOptions.ResolutionOfRendered | src/main.py:248 | any rendered height followed by one unit character reads back as that height |
| DownloadOptions.MenuResolutions | src/main.py:119-128 | the menu labels "1080p", "720p", "480p", "360p" and the default "720p" read as 1080, 720, 480, 360 and 720 |
| DownloadOptions.VideoFormat | src/main.py:249 | the video selector starts with "bestvideo[height<=" and ends with "]+bestaudio", and between them stands a non-empty digit string without a leading zero, as `f'{res}'` of an integer gives |
| DownloadOptions.HeightCapOfVideoFormat | src/main.py:249 | the height bound can be read back out of the video selector |
| DownloadOptions.HeightCapOfAudioFormat | src/main.py:244 | the audio selector "bestaudio/best" carries no height bound |
| DownloadOptions.VideoFormatInjective | src/main.py:249 | different heights give different video selectors |
| DownloadOptions.FormatFor | src/main.py:242-249 | audio always gets "bestaudio/best"; video succeeds exactly when the label reads as an integer, and the selector is then exactly `bestvideo[height<=R]+bestaudio` with R that integer in canonical decimal; the only failure is a bad label |
| DownloadOptions.PathJoin | src/main.py:237 | POSIX `os.path.join` ends with the name, starts with the directory unless the name is absolute, and inserts one '/' when the directory is non-empty and lacks a trailing one, and nothing otherwise |
| DownloadOptions.BuildOptions | src/main.py:236-249 | options are built exactly when the format is; they carry the joined output template, quiet mode, the chosen format, an empty post-processor list for audio, and no post-processor entry at all for video |
| Batch.ProcessDownloads | src/main.py:232-258 | every queued link is tried once, in order, whatever earlier items did; each gets the same options; it succeeds exactly when its options were built and the download returned; failures are classified; the k-th report is `(k, total)` |
| Batch.ReportsProgress | src/main.py:254-258 | reports run 1..total strictly increasing, each fraction has a non-zero denominator and lies in (0, 1], the last equals total |
| App.Init | src/main.py:119-164 | the application starts with an empty valid queue, an empty entry, no save location, status "Ready" and the label "720p" |
| App.SelectDirectory | src/main.py:195-199 | a cancelled dialog changes nothing; a chosen location is stored and nothing else changes |
| App.AddLink | src/main.py:201-217 | a non-empty URL argument is queued and the entry kept; otherwise the entry text is queued and the entry emptied, and an empty entry changes nothing |
| App.RemoveLink | src/main.py:219-223 | the REMOVE button calls `remove_link(row.link, row)`: the first occurrence of its link and the row itself go when present; the entry, location, label and status do not change |
| App.RemoveShownRow | src/main.py:213-223 | the REMOVE button of a row on screen removes one occurrence of its link and keeps the state valid |
| App.ClearLinks | src/main.py:272-277 | both lists end empty and the status reads "All downloads completed!" |
| App.MenuLabelsBuild | src/main.py:119-129 | with any label the menu offers, building the options (line 248) never raises |
| App.DownloadAll | src/main.py:225-260 | without a save location no download starts and only the status becomes the error; otherwise every queued link is tried in order with options built from the chosen location, the media type and the menu label, with `(k, total)` reports; no item fails on the resolution, and the queue ends empty |
| App.StatusText | src/main.py:155-277 | the status line texts ("Ready", the missing-location error, "Completed: c/t", "All downloads completed!"): exactly the progress texts start with "Completed: ", followed only by digits and '/' |
| App.StatusTextInjective | src/main.py:155-277 | different statuses show different texts |
| App.ChooseLink | src/main.py:202 | `url or entry`: the URL when it is a non-empty string, else the entry text; empty exactly when both are |
| App.ReportText | src/main.py:268-270 | the line shown after a progress report starts with "Completed: " followed only by digits and '/' |
| App.CompletedTextDetermines | src/main.py:268-270 | the text "Completed: c/t" determines both c and t |
| App.ReportTextsDistinct | src/main.py:254-270 | the status lines "Completed: k/total" shown after the items of one batch are pairwise different |

## Left out

- Choosing a label in the resolution menu (lines 119-128): a widget interaction with no handler in the code; the menu offers only its four labels, which `App.WellFormed` records.
- Widget construction, placement, `destroy` and label or progress-bar updates (lines 13-160, 205-214, 273-274): user interface only; rows are opaque identities.
- The directory dialog (line 196): its answer is the `chosen` parameter of `App.SelectDirectory`.
- `perform_search` (lines 166-193): a network call through a library that is not part of this model; it shows at most the first 10 results, and each ADD button calls `add_link(url)`, which `App.AddLink` models with a `Some(url)` argument.
- `YoutubeDL(...).download` (lines 251-252): external I/O, modelled as the arbitrary `fetch` outcome.
- Threads and `self.after` (lines 230, 260): the batch is one sequential run on a snapshot of the links, the directory and the label; links added or removed, or settings changed, while a batch runs are not modelled.
- `update_progress` (lines 262-266): a floating-point byte ratio driven by downloader callbacks; the `progress_hooks` entry is left out of `YdlOptions`.
- The error `print` (line 257) and the floating-point fraction passed to the progress bar (lines 254, 258): the fraction is kept as a pair.
- DownloadOptions.PathJoin: models the POSIX `os.path.join`; on Windows the separator is a backslash.
- Decimal.ParseNat: reads only ASCII decimal digits; Python's `int` also accepts surrounding whitespace, a sign, underscores between digits and other Unicode decimal digits; and current Python raises `ValueError` for a digit string longer than 4300 digits, which the model reads normally.
- Decimal.NatToString: current Python's `str` and f-strings raise `ValueError` for an integer of more than 4300 digits; the model renders every natural.
- DownloadOptions.ResolutionOf: accepts only ASCII decimal digits; Python's `int` also accepts surrounding whitespace, a sign, underscores between digits and other Unicode decimal digits. Current Python also refuses labels of more than 4300 digits, which the model reads. The menu offers only short plain digit labels.
- Sanitize.SanitizeFilename: the classes `\w` and `\s` are parameters rather than Python's Unicode tables.

=== FILE: app.dfy ===
/**
 * The application object's state outside the widget tree: the link queue,
 * the text of the URL entry, the chosen save location, the resolution
 * menu's label and the status line, with the button handlers as
 * transitions on that state.
 */
module App {
  import opened Wrappers
  import opened Decimal
  import opened LinkQueue
  import opened DownloadOptions
  import opened Batch

  /** The text of the status line under the progress bar. */
  datatype Status = Ready | NeedLocation | Completed(current: nat, total: nat) | AllDone

  function StatusText(s: Status): (r: string)
    ensures s.Completed? <==> |r| >= |CompletedPrefix| && r[..|CompletedPrefix|] == CompletedPrefix
    ensures s.Completed? ==> forall i :: |CompletedPrefix| <= i < |r| ==> IsDigit(r[i]) || r[i] == '/'
  {
    match s
    case Ready => "Ready"
    case NeedLocation =>
      var r := "Error: Select save location first!";
      assert r[0] == 'E' && CompletedPrefix[0] == 'C';
      assert r[..|CompletedPrefix|][0] != CompletedPrefix[0];
      r
    case Completed(c, t) =>
      var r := CompletedPrefix + NatToString(c) + "/" + NatToString(t);
      assert r[..|CompletedPrefix|] == CompletedPrefix;
      r
    case AllDone =>
      var r := "All downloads completed!";
      assert r[..|CompletedPrefix|][0] != CompletedPrefix[0];
      r
  }

  const CompletedPrefix: string := "Completed: "

  /** `download_directory` is absent until a location has been chosen. */
  datatype AppState = AppState(queue: Queue, entry: string, directory: Option<string>, resolution: string, status: Status)

  /**
   * The state the handlers keep: a valid queue and a label the menu offers.
   * The label is only ever changed by the menu widget, which offers nothing else.
   */
  predicate WellFormed(app: AppState) {
    LinkQueue.Valid(app.queue) && app.resolution in ResolutionChoices
  }

  /** The state right after construction. */
  function Init(): (app: AppState)
    ensures WellFormed(app)
    ensures app.queue.links == [] && app.directory.None? && app.status == Ready
    ensures app.resolution == DefaultResolution && app.entry == []
  {
    AppState(Empty(), "", None, DefaultResolution, Ready)
  }

  /** `select_directory`: `chosen` is what the dialog returned, empty when it was cancelled. */
  function SelectDirectory(app: AppState, chosen: string): (r: AppState)
    ensures chosen == [] ==> r == app
    ensures chosen != [] ==> r.directory == Some(chosen) && r == app.(directory := r.directory)
    ensures WellFormed(app) ==> WellFormed(r)
  {
    if chosen != [] then app.(directory := Some(chosen)) else app
  }

  /** Python's `url or text`: `url` unless it is None or empty. */
  function ChooseLink(url: Option<string>, text: string): (r: string)
    ensures r == text || (url.Some? && r == url.value)
    ensures r == [] <==> (url.None? || url.value == []) && text == []
    ensures url.Some? && url.value != [] ==> r == url.value
  {
    if url.Some? && url.value != [] then url.value else text
  }

  /**
   * `add_link(url)`: a search result's ADD button passes its URL, the
   * button and the Return key pass nothing and the entry's text is used;
   * the entry is emptied only in the second case and only when a link was added.
   */
  function AddLink(app: AppState, url: Option<string>): (r: AppState)
    ensures url.Some? && url.value != [] ==>
              r == app.(queue := Add(app.queue, url.value))
    ensures (url.None? || url.value == []) && app.entry == [] ==> r == app
    ensures (url.None? || url.value == []) && app.entry != [] ==>
              r == app.(queue := Add(app.queue, app.entry), entry := [])
    ensures WellFormed(app) ==> WellFormed(r)
  {
    var link := ChooseLink(url, app.entry);
    if link == [] then app
    else
      var entry := if url.None? || url.value == [] then [] else app.entry;
      app.(queue := Add(app.queue, link), entry := entry)
  }

  /** The REMOVE button of `row`: `remove_link(row.link, row)`. An exception leaves the partial change in place. */
  function RemoveLink(app: AppState, row: Row): (r: AppState)
    ensures r == app.(queue := Remove(app.queue, row.link, row).queue)
    ensures r.entry == app.entry && r.directory == app.directory && r.status == app.status
    ensures r.resolution == app.resolution
    ensures r.queue.nextId == app.queue.nextId
    ensures row in app.queue.rows ==> multiset(r.queue.rows) == multiset(app.queue.rows) - multiset{row}
    ensures row !in app.queue.rows ==> r.queue.rows == app.queue.rows
    ensures row.link !in app.queue.links ==> r.queue.links == app.queue.links
  {
    app.(queue := Remove(app.queue, row.link, row).queue)
  }

  /** Pressing the REMOVE button of a row on screen removes one link and keeps the state valid. */
  lemma RemoveShownRow(app: AppState, row: Row)
    requires WellFormed(app) && row in app.queue.rows
    ensures var r := RemoveLink(app, row);
            && WellFormed(r)
            && |r.queue.links| == |app.queue.links| - 1
            && multiset(r.queue.links) == multiset(app.queue.links) - multiset{row.link}
  {
    RemoveKeepsValid(app.queue, row);
  }

  /** `clear_links`: the queue becomes empty and the status line says so. */
  function ClearLinks(app: AppState): (r: AppState)
    ensures r.queue.links == [] && r.queue.rows == []
    ensures r.status == AllDone
    ensures r.entry == app.entry && r.directory == app.directory && r.resolution == app.resolution
    ensures WellFormed(app) ==> WellFormed(r)
  {
    app.(queue := Clear(app.queue), status := AllDone)
  }

  /** With any label the menu offers, building the options never raises. */
  lemma MenuLabelsBuild(app: AppState, dir: string, media: MediaType)
    requires WellFormed(app)
    ensures BuildOptions(dir, media, app.resolution).Ok?
  {
    MenuResolutions();
  }

  /**
   * `download_all(media)` followed by the batch it starts and the
   * `clear_links` the batch schedules at its end. Without a save location
   * nothing is downloaded and only the status line changes.
   */
  method DownloadAll(app: AppState, media: MediaType, fetch: Fetcher)
    returns (r: AppState, records: seq<Record>, reports: seq<Report>)
    ensures app.directory.None? ==> r == app.(status := NeedLocation) && records == [] && reports == []
    ensures app.directory.Some? ==> |records| == |app.queue.links| && ReportsCount(reports, |app.queue.links|)
    ensures app.directory.Some? ==> forall k :: 0 <= k < |records| ==>
              Handled(records[k], k + 1, app.queue.links[k], BuildOptions(app.directory.value, media, app.resolution), fetch)
    ensures app.directory.Some? ==> r.queue.links == [] && r.queue.rows == [] && r.status == AllDone
    ensures r.entry == app.entry && r.directory == app.directory && r.resolution == app.resolution
    ensures WellFormed(app) && app.directory.Some? ==>
              forall k :: 0 <= k < |records| ==> records[k].options.Some?
    ensures WellFormed(app) ==> WellFormed(r)
  {
    if app.directory.None? {
      return app.(status := NeedLocation), [], [];
    }
    records, reports := ProcessDownloads(app.queue.links, app.directory.value, media, app.resolution, fetch);
    if WellFormed(app) {
      MenuLabelsBuild(app, app.directory.value, media);
    }
    r := ClearLinks(app);
  }

  /** The status line shown after a progress report: "Completed: current/total". */
  function ReportText(r: Report): (t: string)
    ensures |t| > |CompletedPrefix| && t[..|CompletedPrefix|] == CompletedPrefix
    ensures forall i :: |CompletedPrefix| <= i < |t| ==> IsDigit(t[i]) || t[i] == '/'
  {
    StatusText(Completed(r.current, r.total))
  }

  /** The status lines of the reports of one batch are pairwise different, so each item's report is visible as such. */
  lemma ReportTextsDistinct(reports: seq<Report>, total: nat)
    requires ReportsCount(reports, total)
    ensures forall j, k :: 0 <= j < k < |reports| ==> ReportText(reports[j]) != ReportText(reports[k])
  {
    forall j, k | 0 <= j < k < |reports|
      ensures ReportText(reports[j]) != ReportText(reports[k])
    {
      if ReportText(reports[j]) == ReportText(reports[k]) {
        CompletedTextDetermines(reports[j].current, reports[j].total, reports[k].current, reports[k].total);
        assert false;
      }
    }
  }

  /** The text of a progress report names both its numbers: different reports read differently. */
  lemma {:induction false} CompletedTextDetermines(a: nat, b: nat, c: nat, d: nat)
    requires StatusText(Completed(a, b)) == StatusText(Completed(c, d))
    ensures a == c && b == d
  {
    var x, y := NatToString(a), NatToString(b);
    var x', y' := NatToString(c), NatToString(d);
    var s := StatusText(Completed(a, b));
    var n := |CompletedPrefix|;
    assert s[n..] == x + "/" + y;
    assert s[n..] == x' + "/" + y';
    SplitAtSlash(x, y, x', y');
    RenderInjective(a, c);
    RenderInjective(b, d);
  }

  /** In a digit string followed by '/', the first '/' sits right after the digits. */
  lemma FirstSlash(x: string, y: string, s: string)
    requires AllDigits(x) && s == x + "/" + y
    ensures |s| > |x| && s[|x|] == '/'
    ensures forall i :: 0 <= i < |x| ==> s[i] != '/'
  {
    assert forall i :: 0 <= i < |x| ==> s[i] == x[i];
  }

  /** Two digit strings followed by '/' and anything split at the same place. */
  lemma SplitAtSlash(x: string, y: string, x': string, y': string)
    requires AllDigits(x) && AllDigits(x')
    requires x + "/" + y == x' + "/" + y'
    ensures x == x' && y == y'
  {
    var s := x + "/" + y;
    FirstSlash(x, y, s);
    FirstSlash(x', y', s);
    assert |x| == |x'|;
    assert x == s[..|x|] == x';
    assert y == s[|x| + 1..] == y';
  }

  /** Different statuses show different texts. */
  lemma StatusTextInjective(a: Status, b: Status)
    requires StatusText(a) == StatusText(b)
    ensures a == b
  {
    if a.Completed? && b.Completed? {
      CompletedTextDetermines(a.current, a.total, b.current, b.total);
    }
  }
}

=== FILE: batch.dfy ===
/**
 * `process_downloads`: the queued links are taken one after another; each
 * gets its own options dictionary and one call of the external downloader.
 * An exception ends only that item. After every item, successful or not,
 * the overall progress `(index, total)` is reported.
 */
module Batch {
  import opened Wrappers
  import opened DownloadOptions

  /** Whether `YoutubeDL(options).download([link])` returns normally for the item at a 1-based index. */
  type Fetcher = (nat, string, YdlOptions) -> bool

  datatype Outcome = Done | Failed(error: ItemError)

  /** One item of the batch: its link, the options it was given (none if building them raised), how it ended. */
  datatype Record = Record(link: string, options: Option<YdlOptions>, outcome: Outcome)

  /** `update_overall_progress(current / total, current, total)`, with the fraction kept as a pair. */
  datatype Report = Report(current: nat, total: nat)

  /** The shape of the progress reports of a batch of `total` items. */
  predicate ReportsCount(reports: seq<Report>, total: nat) {
    |reports| == total && forall k :: 0 <= k < |reports| ==> reports[k] == Report(k + 1, total)
  }

  /**
   * How the item at 1-based `index` ended, given the result of building its
   * options: without options it failed on the resolution; with them it is
   * done exactly when the download returned, and failed on the download otherwise.
   */
  predicate Handled(record: Record, index: nat, link: string, built: Result<YdlOptions, ItemError>, fetch: Fetcher) {
    && record.link == link
    && (record.options.Some? <==> built.Ok?)
    && (built.Ok? ==> record.options.value == built.value)
    && (record.outcome == Done <==> built.Ok? && fetch(index, link, built.value))
    && (record.outcome.Failed? ==> record.outcome.error == (if built.Ok? then DownloadFailed else BadResolution))
  }

  /** The run of one batch of links with the options fixed at its start. */
  method ProcessDownloads(links: seq<string>, dir: string, media: MediaType, res: string, fetch: Fetcher)
    returns (records: seq<Record>, reports: seq<Report>)
    ensures |records| == |links|
    ensures ReportsCount(reports, |links|)
    ensures forall k :: 0 <= k < |links| ==> Handled(records[k], k + 1, links[k], BuildOptions(dir, media, res), fetch)
  {
    var total := |links|;
    records := [];
    reports := [];
    var index := 0;
    while index < total
      invariant 0 <= index <= total
      invariant |records| == index
      invariant |reports| == index
      invariant forall k :: 0 <= k < index ==> reports[k] == Report(k + 1, total)
      invariant forall k :: 0 <= k < index ==> Handled(records[k], k + 1, links[k], BuildOptions(dir, media, res), fetch)
    {
      var link := links[index];
      index := index + 1;
      var record;
      match BuildOptions(dir, media, res) {
        case Err(e) =>
          record := Record(link, None, Failed(e));
        case Ok(opts) =>
          if fetch(index, link, opts) {
            record := Record(link, Some(opts), Done);
          } else {
            record := Record(link, Some(opts), Failed(DownloadFailed));
          }
      }
      records := records + [record];
      reports := reports + [Report(index, total)];
    }
  }

  /**
   * The progress reports of a batch: every item is reported once, indices
   * run 1..total strictly increasing, every fraction `current / total` has
   * a non-zero denominator and lies in (0, 1], and the last one is complete.
   */
  lemma ReportsProgress(reports: seq<Report>, total: nat)
    requires ReportsCount(reports, total)
    ensures forall k :: 0 <= k < |reports| ==> reports[k].total == total && total > 0
    ensures forall k :: 0 <= k < |reports| ==> 1 <= reports[k].current <= reports[k].total
    ensures forall j, k :: 0 <= j < k < |reports| ==> reports[j].current < reports[k].current
    ensures total > 0 ==> reports[|reports| - 1].current == total
  {
  }
}

=== FILE: decimal.dfy ===
/**
 * Decimal digit strings: the `int(...)` conversion applied to a resolution
 * label and the `f'{res}'` rendering of an integer inside a format string.
 */
module Decimal {
  import opened Wrappers

  predicate IsDigit(c: char) {
    '0' <= c <= '9'
  }

  predicate AllDigits(s: string) {
    forall i :: 0 <= i < |s| ==> IsDigit(s[i])
  }

  function DigitValue(c: char): (d: nat)
    requires IsDigit(c)
    ensures d < 10
  {
    c as int - '0' as int
  }

  function DigitChar(d: nat): (c: char)
    requires d < 10
    ensures IsDigit(c)
    ensures DigitValue(c) == d
  {
    ('0' as int + d) as char
  }

  /** The value of a string of decimal digits, most significant first. */
  function DigitsValue(s: string): nat
    requires AllDigits(s)
  {
    if s == [] then 0 else DigitsValue(s[..|s| - 1]) * 10 + DigitValue(s[|s| - 1])
  }

  /** Python's `int(s)` on strings of plain decimal digits; every other string reads as None here. */
  function ParseNat(s: string): (r: Option<nat>)
    ensures r.Some? <==> (s != [] && AllDigits(s))
  {
    if s != [] && AllDigits(s) then Some(DigitsValue(s)) else None
  }

  /** Python's `str(n)` for a non-negative integer. */
  function NatToString(n: nat): (s: string)
    ensures s != [] && AllDigits(s)
    ensures |s| > 1 ==> s[0] != '0'
    decreases n
  {
    if n < 10 then [DigitChar(n)] else NatToString(n / 10) + [DigitChar(n % 10)]
  }

  /** Rendering an integer and reading it back gives the integer. */
  lemma {:induction false} ParseRendered(n: nat)
    ensures ParseNat(NatToString(n)) == Some(n)
  {
    ValueOfRendered(n);
  }

  lemma {:induction false} ValueOfRendered(n: nat)
    ensures DigitsValue(NatToString(n)) == n
    decreases n
  {
    var s := NatToString(n);
    if n >= 10 {
      assert s[..|s| - 1] == NatToString(n / 10);
      ValueOfRendered(n / 10);
    }
  }

  /** A canonical digit string (no leading zero) is the rendering of its value. */
  lemma {:induction false} RenderParsed(s: string)
    requires s != [] && AllDigits(s)
    requires |s| > 1 ==> s[0] != '0'
    ensures NatToString(DigitsValue(s)) == s
    decreases |s|
  {
    var n := DigitsValue(s);
    if |s| == 1 {
      assert s[..|s| - 1] == [];
      assert DigitsValue(s[..|s| - 1]) == 0;
      assert n == DigitValue(s[0]) && n < 10;
      assert DigitChar(n) == s[0];
      assert NatToString(n) == [s[0]];
    } else {
      var p := s[..|s| - 1];
      assert AllDigits(p);
      assert p[0] == s[0];
      RenderParsed(p);
      PositiveValue(p);
      assert n / 10 == DigitsValue(p) && n % 10 == DigitValue(s[|s| - 1]);
      assert NatToString(n) == NatToString(DigitsValue(p)) + [DigitChar(DigitValue(s[|s| - 1]))];
    }
  }

  /** A digit string that does not start with '0' has a value of at least 1. */
  lemma {:induction false} PositiveValue(s: string)
    requires s != [] && AllDigits(s) && s[0] != '0'
    ensures DigitsValue(s) >= 1
    decreases |s|
  {
    if |s| > 1 {
      var p := s[..|s| - 1];
      assert p[0] == s[0];
      PositiveValue(p);
    }
  }

  /** Rendering is injective: distinct integers give distinct strings. */
  lemma RenderInjective(a: nat, b: nat)
    requires NatToString(a) == NatToString(b)
    ensures a == b
  {
    ParseRendered(a);
    ParseRendered(b);
  }
}

=== FILE: download_options.dfy ===
/**
 * The options dictionary `process_downloads` hands to `yt_dlp.YoutubeDL`
 * for each queued link: output template, format selector and
 * post-processors, chosen by media type and resolution label.
 */
module DownloadOptions {
  import opened Wrappers
  import opened Decimal

  datatype MediaType = Audio | Video

  /** The labels the resolution menu offers, and the one it starts on. */
  const ResolutionChoices: seq<string> := ["1080p", "720p", "480p", "360p"]
  const DefaultResolution: string := "720p"

  /** Why an item of the batch raised. */
  datatype ItemError =
    | BadResolution   // `int(label[:-1])` raised ValueError
    | DownloadFailed  // `YoutubeDL(...).download([link])` raised

  /** `int(label[:-1])`: the label without its last character, read as a decimal integer. */
  function ResolutionOf(res: string): (r: Option<nat>)
    ensures r.Some? <==> |res| >= 2 && AllDigits(res[..|res| - 1])
  {
    if res == [] then None else ParseNat(res[..|res| - 1])
  }

  /** A rendered height followed by any unit character reads back as that height. */
  lemma ResolutionOfRendered(h: nat, unit: char)
    ensures ResolutionOf(NatToString(h) + [unit]) == Some(h)
  {
    var res := NatToString(h) + [unit];
    assert res[..|res| - 1] == NatToString(h);
    ParseRendered(h);
  }

  /** Every label of the menu reads as its number of lines. */
  lemma MenuResolutions()
    ensures ResolutionOf(ResolutionChoices[0]) == Some(1080)
    ensures ResolutionOf(ResolutionChoices[1]) == Some(720)
    ensures ResolutionOf(ResolutionChoices[2]) == Some(480)
    ensures ResolutionOf(ResolutionChoices[3]) == Some(360)
    ensures ResolutionOf(DefaultResolution) == Some(720)
  {
    LabelReads(1080, "1080p");
    LabelReads(720, "720p");
    LabelReads(480, "480p");
    LabelReads(360, "360p");
  }

  lemma LabelReads(h: nat, res: string)
    requires res == NatToString(h) + "p"
    ensures ResolutionOf(res) == Some(h)
  {
    ResolutionOfRendered(h, 'p');
  }

  const AudioFormat: string := "bestaudio/best"
  const VideoFormatPrefix: string := "bestvideo[height<="
  const VideoFormatSuffix: string := "]+bestaudio"

  /** `f'bestvideo[height<={res}]+bestaudio'`. */
  function VideoFormat(height: nat): (f: string)
    ensures |f| > |VideoFormatPrefix| + |VideoFormatSuffix|
    ensures f[..|VideoFormatPrefix|] == VideoFormatPrefix
    ensures f[|f| - |VideoFormatSuffix|..] == VideoFormatSuffix
    ensures var m := f[|VideoFormatPrefix|..|f| - |VideoFormatSuffix|];
            m != [] && AllDigits(m) && (|m| > 1 ==> m[0] != '0')
  {
    VideoFormatPrefix + NatToString(height) + VideoFormatSuffix
  }

  /** The height bound a format selector of the video shape names, if it has that shape. */
  function HeightCap(format: string): Option<nat> {
    var p := |VideoFormatPrefix|;
    var s := |VideoFormatSuffix|;
    if |format| >= p + s && format[..p] == VideoFormatPrefix && format[|format| - s..] == VideoFormatSuffix
    then ParseNat(format[p..|format| - s])
    else None
  }

  /** The height bound can be read back out of a video format selector. */
  lemma HeightCapOfVideoFormat(height: nat)
    ensures HeightCap(VideoFormat(height)) == Some(height)
  {
    var f := VideoFormat(height);
    assert f[|VideoFormatPrefix|..|f| - |VideoFormatSuffix|] == NatToString(height);
    ParseRendered(height);
  }

  /** The audio selector names no height bound. */
  lemma HeightCapOfAudioFormat()
    ensures HeightCap(AudioFormat) == None
  {
    assert |AudioFormat| < |VideoFormatPrefix| + |VideoFormatSuffix|;
  }

  /** Distinct heights give distinct selectors. */
  lemma VideoFormatInjective(a: nat, b: nat)
    requires VideoFormat(a) == VideoFormat(b)
    ensures a == b
  {
    HeightCapOfVideoFormat(a);
    HeightCapOfVideoFormat(b);
  }

  /** The `format` entry: fixed for audio, bounded by the menu's height for video. */
  function FormatFor(media: MediaType, res: string): (r: Result<string, ItemError>)
    ensures media == Audio ==> r == Ok(AudioFormat)
    ensures media == Video ==> (r.Ok? <==> ResolutionOf(res).Some?)
    ensures media == Video && r.Ok? ==> HeightCap(r.value) == ResolutionOf(res)
    ensures media == Video && r.Ok? ==> r.value == VideoFormat(ResolutionOf(res).value)
    ensures r.Err? ==> r.error == BadResolution
  {
    match media
    case Audio => Ok(AudioFormat)
    case Video =>
      match ResolutionOf(res)
      case None => Err(BadResolution)
      case Some(h) =>
        HeightCapOfVideoFormat(h);
        Ok(VideoFormat(h))
  }

  /** The `outtmpl` file-name part, expanded by the downloader from the video's title and extension. */
  const OutputTemplate: string := "%(title)s.%(ext)s"

  /** POSIX `os.path.join(dir, name)`. */
  function PathJoin(dir: string, name: string): (r: string)
    ensures |r| >= |name| && r[|r| - |name|..] == name
    ensures name != [] && name[0] == '/' ==> r == name
    ensures (name == [] || name[0] != '/') ==> |r| >= |dir| && r[..|dir|] == dir
    ensures (name == [] || name[0] != '/') && dir != [] && dir[|dir| - 1] != '/' ==> r == dir + "/" + name
    ensures (name == [] || name[0] != '/') && (dir == [] || dir[|dir| - 1] == '/') ==> r == dir + name
  {
    if name != [] && name[0] == '/' then name
    else if dir == [] || dir[|dir| - 1] == '/' then dir + name
    else dir + "/" + name
  }

  /** The options dictionary (the progress hook is left out). */
  datatype YdlOptions = YdlOptions(outtmpl: string, quiet: bool, format: string, postprocessors: Option<seq<string>>)

  /**
   * The options built for one item; building raises for video when the
   * resolution label does not read as an integer.
   */
  function BuildOptions(dir: string, media: MediaType, res: string): (r: Result<YdlOptions, ItemError>)
    ensures r.Ok? <==> FormatFor(media, res).Ok?
    ensures r.Ok? ==> r.value.format == FormatFor(media, res).value
    ensures r.Ok? ==> r.value.outtmpl == PathJoin(dir, OutputTemplate) && r.value.quiet
    ensures r.Ok? ==> (r.value.postprocessors == Some([]) <==> media == Audio)
    ensures r.Ok? && media == Video ==> r.value.postprocessors == None
    ensures r.Err? ==> r.error == BadResolution
  {
    var base := YdlOptions(PathJoin(dir, OutputTemplate), true, "", None);
    match FormatFor(media, res)
    case Err(e) => Err(e)
    case Ok(f) =>
      if media == Audio then Ok(base.(format := f, postprocessors := Some([])))
      else Ok(base.(format := f))
  }
}

=== FILE: link_queue.dfy ===
/**
 * The queue of links waiting to be downloaded: the parallel lists
 * `links` (URL strings) and `link_rows` (one widget row per added link).
 * A row is known by its identity; it also remembers the link its REMOVE
 * button passes back to `remove_link`.
 */
module LinkQueue {

  /** A row widget: `id` is its object identity, `link` the URL its REMOVE button captured. */
  datatype Row = Row(id: nat, link: string)

  /** `links`, `link_rows`, and the identity the next created row will receive. */
  datatype Queue = Queue(links: seq<string>, rows: seq<Row>, nextId: nat)

  /** The links captured by a sequence of rows, in row order. */
  function Labels(rows: seq<Row>): (ls: seq<string>)
    ensures |ls| == |rows|
  {
    seq(|rows|, i requires 0 <= i < |rows| => rows[i].link)
  }

  /** Row identities are distinct and all below `nextId`, so a new row never clashes with an old one. */
  predicate FreshIds(q: Queue) {
    && (forall i :: 0 <= i < |q.rows| ==> q.rows[i].id < q.nextId)
    && (forall i, j :: 0 <= i < j < |q.rows| ==> q.rows[i].id != q.rows[j].id)
  }

  /**
   * The queue invariant: one row per link, and the rows' captured links are
   * the queued links counted with multiplicity.
   */
  predicate Valid(q: Queue) {
    && |q.links| == |q.rows|
    && multiset(q.links) == multiset(Labels(q.rows))
    && FreshIds(q)
  }

  /** Every row sits at the same position as its link in `links`. */
  predicate Aligned(q: Queue) {
    |q.links| == |q.rows| && forall i :: 0 <= i < |q.links| ==> q.links[i] == q.rows[i].link
  }

  /** The lists as created by the application's constructor. */
  function Empty(): (q: Queue)
    ensures Valid(q) && Aligned(q)
    ensures |q.links| == 0
  {
    Queue([], [], 0)
  }

  /** `add_link` once the link has been chosen: an empty link changes nothing. */
  function Add(q: Queue, link: string): (r: Queue)
    ensures link == [] ==> r == q
    ensures link != [] ==> r.links == q.links + [link]
    ensures link != [] ==> |r.rows| == |q.rows| + 1 && r.rows[..|q.rows|] == q.rows
    ensures link != [] ==> r.rows[|q.rows|] == Row(q.nextId, link)
    ensures Valid(q) ==> Valid(r)
    ensures Aligned(q) ==> Aligned(r)
  {
    if link == [] then q
    else
      var r := Queue(q.links + [link], q.rows + [Row(q.nextId, link)], q.nextId + 1);
      assert Labels(r.rows) == Labels(q.rows) + [link] by {
        assert r.rows[..|r.rows| - 1] == q.rows;
      }
      r
  }

  /** The position of the first occurrence of `x` in `s`. */
  function FirstIndex<T(==)>(s: seq<T>, x: T): (i: nat)
    requires x in s
    ensures i < |s| && s[i] == x
    ensures forall j :: 0 <= j < i ==> s[j] != x
  {
    if s[0] == x then 0 else 1 + FirstIndex(s[1..], x)
  }

  /** Python's `list.remove(x)` on a list that holds `x`. */
  function RemoveFirst<T(==)>(s: seq<T>, x: T): (r: seq<T>)
    requires x in s
    ensures |r| == |s| - 1
    ensures forall k :: 0 <= k < |r| ==> r[k] == s[if k < FirstIndex(s, x) then k else k + 1]
    ensures multiset(r) == multiset(s) - multiset{x}
  {
    var i := FirstIndex(s, x);
    assert s == s[..i] + [x] + s[i + 1..];
    s[..i] + s[i + 1..]
  }

  /** What `remove_link` leaves behind. */
  datatype Removal =
    | Removed(queue: Queue)
      /** `link_rows.remove(row)` raised ValueError after `links` had already changed. */
    | RowMissing(queue: Queue)

  /**
   * `remove_link(link, row)`: drop the first occurrence of `link` from
   * `links` when there is one, then drop `row` from `link_rows`.
   */
  function Remove(q: Queue, link: string, row: Row): (r: Removal)
    ensures r.queue.nextId == q.nextId
    ensures link !in q.links ==> r.queue.links == q.links
    ensures link in q.links ==>
              var i := FirstIndex(q.links, link);
              r.queue.links == q.links[..i] + q.links[i + 1..]
    ensures r.Removed? <==> row in q.rows
    ensures r.Removed? ==> r.queue.rows == RemoveFirst(q.rows, row)
    ensures r.Removed? ==> multiset(r.queue.rows) == multiset(q.rows) - multiset{row}
    ensures r.RowMissing? ==> r.queue.rows == q.rows
  {
    var links := if link in q.links then RemoveFirst(q.links, link) else q.links;
    if row in q.rows then Removed(Queue(links, RemoveFirst(q.rows, row), q.nextId))
    else RowMissing(Queue(links, q.rows, q.nextId))
  }

  /** `clear_links`: both lists become empty; identities already handed out stay used. */
  function Clear(q: Queue): (r: Queue)
    ensures Valid(r) && Aligned(r)
    ensures |r.links| == 0 && |r.rows| == 0
    ensures r.nextId == q.nextId
  {
    Queue([], [], q.nextId)
  }

  lemma LabelsConcat(a: seq<Row>, b: seq<Row>)
    ensures Labels(a + b) == Labels(a) + Labels(b)
  {
  }

  lemma FirstIndexAppended<T>(s: seq<T>, x: T)
    requires x !in s
    ensures FirstIndex(s + [x], x) == |s|
  {
    var t := s + [x];
    assert t[..|s|] == s;
  }

  /** Removing a row takes its captured link out of the labels once. */
  lemma LabelsRemove(rows: seq<Row>, row: Row)
    requires row in rows
    ensures multiset(Labels(RemoveFirst(rows, row))) == multiset(Labels(rows)) - multiset{row.link}
  {
    var i := FirstIndex(rows, row);
    var a, b := rows[..i], rows[i + 1..];
    assert rows == a + [row] + b;
    assert RemoveFirst(rows, row) == a + b;
    LabelsConcat(a + [row], b);
    LabelsConcat(a, [row]);
    LabelsConcat(a, b);
    var la, lb := Labels(a), Labels(b);
    assert Labels(rows) == la + [row.link] + lb;
    assert multiset(Labels(rows)) == multiset(la) + multiset{row.link} + multiset(lb);
    assert multiset(Labels(RemoveFirst(rows, row))) == multiset(la) + multiset(lb);
  }

  /** Removing a subset of positions keeps identities distinct. */
  lemma FreshAfterRemove(q: Queue, row: Row)
    requires FreshIds(q) && row in q.rows
    ensures forall k :: 0 <= k < |RemoveFirst(q.rows, row)| ==> RemoveFirst(q.rows, row)[k].id < q.nextId
    ensures forall k, l :: 0 <= k < l < |RemoveFirst(q.rows, row)| ==>
              RemoveFirst(q.rows, row)[k].id != RemoveFirst(q.rows, row)[l].id
  {
    var i := FirstIndex(q.rows, row);
    var r := RemoveFirst(q.rows, row);
    forall k | 0 <= k < |r| ensures r[k] == q.rows[if k < i then k else k + 1] { }
  }

  /**
   * Pressing the REMOVE button of a row of a valid queue: the row is found,
   * its link is found, and the invariant (one row per link, matching
   * multisets) still holds afterwards.
   */
  lemma RemoveKeepsValid(q: Queue, row: Row)
    requires Valid(q) && row in q.rows
    ensures Remove(q, row.link, row).Removed?
    ensures Valid(Remove(q, row.link, row).queue)
    ensures |Remove(q, row.link, row).queue.links| == |q.links| - 1
  {
    var i := FirstIndex(q.rows, row);
    assert Labels(q.rows)[i] == row.link;
    assert row.link in multiset(Labels(q.rows));
    assert row.link in q.links;
    LabelsRemove(q.rows, row);
    FreshAfterRemove(q, row);
    var r := Remove(q, row.link, row).queue;
    assert |multiset(r.links)| == |multiset(q.links)| - 1;
  }

  /** Adding a link and then pressing its REMOVE button restores the queue's contents and length. */
  lemma AddThenRemove(q: Queue, link: string)
    requires Valid(q) && link != []
    ensures var r := Remove(Add(q, link), link, Row(q.nextId, link));
            && r.Removed?
            && r.queue.rows == q.rows
            && multiset(r.queue.links) == multiset(q.links)
            && |r.queue.links| == |q.links|
            && (link !in q.links ==> r.queue.links == q.links)
  {
    var row := Row(q.nextId, link);
    var a := Add(q, link);
    assert a.rows == q.rows + [row];
    assert a.links == q.links + [link];
    assert row !in q.rows by {
      forall k | 0 <= k < |q.rows| ensures q.rows[k] != row {
        assert q.rows[k].id < q.nextId;
      }
    }
    FirstIndexAppended(q.rows, row);
    assert RemoveFirst(a.rows, row) == q.rows by {
      assert a.rows[..|q.rows|] == q.rows;
    }
    var r := Remove(a, link, row);
    assert r.queue.rows == q.rows;
    assert multiset(r.queue.links) == multiset(q.links);
    if link !in q.links {
      FirstIndexAppended(q.links, link);
      assert a.links[..|q.links|] == q.links;
    }
  }

  /** Deleting the same position from two aligned lists keeps them aligned. */
  lemma DropKeepsAligned(links: seq<string>, rows: seq<Row>, i: nat)
    requires |links| == |rows| && i < |links|
    requires forall k :: 0 <= k < |links| ==> links[k] == rows[k].link
    ensures Aligned(Queue(links[..i] + links[i + 1..], rows[..i] + rows[i + 1..], 0))
  {
    var ls := links[..i] + links[i + 1..];
    var rs := rows[..i] + rows[i + 1..];
    forall k | 0 <= k < |ls| ensures ls[k] == rs[k].link {
      if k < i {
        assert ls[k] == links[k] && rs[k] == rows[k];
      } else {
        assert ls[k] == links[k + 1] && rs[k] == rows[k + 1];
      }
    }
  }

  /** Removing through the first row that carries a link keeps rows and links position by position. */
  lemma RemoveFirstRowKeepsAligned(q: Queue, row: Row)
    requires Aligned(q) && row in q.rows
    requires forall k :: 0 <= k < FirstIndex(q.rows, row) ==> q.rows[k].link != row.link
    ensures Aligned(Remove(q, row.link, row).queue)
  {
    var i := FirstIndex(q.rows, row);
    assert q.links[i] == row.link;
    var j := FirstIndex(q.links, row.link);
    assert q.rows[j].link == row.link;
    assert j == i;
    DropKeepsAligned(q.links, q.rows, i);
  }

  lemma SampleQueue()
    ensures Add(Add(Add(Empty(), "a"), "b"), "a")
         == Queue(["a", "b", "a"], [Row(0, "a"), Row(1, "b"), Row(2, "a")], 3)
  {
    var q0 := Add(Empty(), "a");
    assert q0 == Queue(["a"], [Row(0, "a")], 1);
    var q1 := Add(q0, "b");
    assert q1 == Queue(["a", "b"], [Row(0, "a"), Row(1, "b")], 2);
  }

  lemma SampleRemove()
    ensures Remove(Queue(["a", "b", "a"], [Row(0, "a"), Row(1, "b"), Row(2, "a")], 3), "a", Row(2, "a"))
         == Removed(Queue(["b", "a"], [Row(0, "a"), Row(1, "b")], 3))
  {
    var links: seq<string> := ["a", "b", "a"];
    var rows := [Row(0, "a"), Row(1, "b"), Row(2, "a")];
    assert "a" in links;
    assert FirstIndex(links, "a") == 0;
    assert RemoveFirst(links, "a") == ["b", "a"] by {
      assert links[1..] == ["b", "a"];
    }
    assert Row(2, "a") in rows by { assert rows[2] == Row(2, "a"); }
    assert rows[0].id != 2 && rows[1].id != 2;
    assert FirstIndex(rows, Row(2, "a")) == 2;
    assert RemoveFirst(rows, Row(2, "a")) == [Row(0, "a"), Row(1, "b")] by {
      assert rows[..2] == [Row(0, "a"), Row(1, "b")] && rows[3..] == [];
    }
  }

  /**
   * With a duplicated link, removing the later row takes out the earlier
   * entry of `links`: the rows shown no longer match `links` position by position.
   */
  lemma DuplicateRemovalMisaligns()
    ensures var q := Add(Add(Add(Empty(), "a"), "b"), "a");
            && Aligned(q)
            && Remove(q, "a", Row(2, "a")) == Removed(Queue(["b", "a"], [Row(0, "a"), Row(1, "b")], 3))
            && !Aligned(Remove(q, "a", Row(2, "a")).queue)
  {
    SampleQueue();
    SampleRemove();
    var r := Queue(["b", "a"], [Row(0, "a"), Row(1, "b")], 3);
    assert r.rows[0].link != r.links[0];
  }
}

=== FILE: sanitize.dfy ===
/**
 * `sanitize_filename`: `re.sub(r'[^\w\s-]', '', name).replace(' ', '_')`.
 * Python's Unicode classes `\w` and `\s` are not spelled out; they are the
 * two predicates of a `CharClasses` value.
 */
module Sanitize {

  /** The regular-expression classes `\w` (word) and `\s` (whitespace). */
  datatype CharClasses = CharClasses(isWord: char -> bool, isSpace: char -> bool) {

    /** What Python guarantees of the classes: '_' is a word character, ' ' is whitespace. */
    predicate Valid() {
      isWord('_') && isSpace(' ')
    }

    /** The characters the substitution does not delete: `\w`, `\s` or '-'. */
    predicate Keeps(c: char) {
      isWord(c) || isSpace(c) || c == '-'
    }
  }

  /** A character that may appear in a sanitised name. */
  predicate SafeChar(cc: CharClasses, c: char) {
    c != ' ' && (cc.Keeps(c) || c == '_')
  }

  /** `re.sub(r'[^\w\s-]', '', s)`: delete every character outside the classes. */
  function StripUnsafe(cc: CharClasses, s: string): (r: string)
    ensures |r| <= |s|
    ensures forall i :: 0 <= i < |r| ==> cc.Keeps(r[i])
    ensures (forall i :: 0 <= i < |s| ==> cc.Keeps(s[i])) ==> r == s
    decreases |s|
  {
    if s == [] then []
    else (if cc.Keeps(s[0]) then [s[0]] else []) + StripUnsafe(cc, s[1..])
  }

  function SpaceToUnderscore(c: char): char {
    if c == ' ' then '_' else c
  }

  /** `.replace(' ', '_')`: a one-for-one character map. */
  function ReplaceSpaces(s: string): (r: string)
    ensures |r| == |s|
    ensures forall i :: 0 <= i < |s| ==> r[i] != ' '
    ensures forall i :: 0 <= i < |s| ==> (s[i] == ' ' ==> r[i] == '_') && (s[i] != ' ' ==> r[i] == s[i])
  {
    seq(|s|, i requires 0 <= i < |s| => SpaceToUnderscore(s[i]))
  }

  /** `sanitize_filename`. */
  function SanitizeFilename(cc: CharClasses, name: string): (r: string)
    ensures |r| <= |name|
    ensures ' ' !in r
    ensures forall i :: 0 <= i < |r| ==> SafeChar(cc, r[i])
  {
    ReplaceSpaces(StripUnsafe(cc, name))
  }

  /** Deleting commutes with concatenation. */
  lemma {:induction false} StripConcat(cc: CharClasses, a: string, b: string)
    ensures StripUnsafe(cc, a + b) == StripUnsafe(cc, a) + StripUnsafe(cc, b)
    decreases |a|
  {
    if a != [] {
      assert (a + b)[1..] == a[1..] + b;
      StripConcat(cc, a[1..], b);
    } else {
      assert a + b == b;
    }
  }

  /**
   * Sanitising works character by character: the result for `a + b` is the
   * result for `a` followed by the result for `b`, so the characters kept
   * stay in their original order.
   */
  lemma SanitizeConcat(cc: CharClasses, a: string, b: string)
    ensures SanitizeFilename(cc, a + b) == SanitizeFilename(cc, a) + SanitizeFilename(cc, b)
  {
    StripConcat(cc, a, b);
  }

  /** A single character is dropped when outside the classes and otherwise kept, a space becoming '_'. */
  lemma SanitizeChar(cc: CharClasses, c: char)
    ensures !cc.Keeps(c) ==> SanitizeFilename(cc, [c]) == []
    ensures cc.Keeps(c) && c == ' ' ==> SanitizeFilename(cc, [c]) == ['_']
    ensures cc.Keeps(c) && c != ' ' ==> SanitizeFilename(cc, [c]) == [c]
  {
    assert [c][1..] == [];
  }

  /** Whitespace other than the plain space (a tab, a newline) passes through unchanged. */
  lemma OtherWhitespaceSurvives(cc: CharClasses, c: char)
    requires cc.isSpace(c) && c != ' '
    ensures SanitizeFilename(cc, [c]) == [c]
  {
    SanitizeChar(cc, c);
  }

  /** A name is left unchanged exactly when it holds no space and only kept characters. */
  lemma {:induction false} FixedPoint(cc: CharClasses, name: string)
    requires cc.Valid()
    ensures SanitizeFilename(cc, name) == name <==>
            forall i :: 0 <= i < |name| ==> name[i] != ' ' && cc.Keeps(name[i])
  {
    var r := SanitizeFilename(cc, name);
    if r == name {
      forall i | 0 <= i < |name|
        ensures name[i] != ' ' && cc.Keeps(name[i])
      {
        assert SafeChar(cc, r[i]);
      }
    }
    if forall i :: 0 <= i < |name| ==> name[i] != ' ' && cc.Keeps(name[i]) {
      assert StripUnsafe(cc, name) == name;
      assert ReplaceSpaces(name) == name;
    }
  }

  /** Sanitising twice gives the same name as sanitising once. */
  lemma Idempotent(cc: CharClasses, name: string)
    requires cc.Valid()
    ensures SanitizeFilename(cc, SanitizeFilename(cc, name)) == SanitizeFilename(cc, name)
  {
    var r := SanitizeFilename(cc, name);
    FixedPoint(cc, r);
  }

  /** "a b?" becomes "a_b" whenever 'a' and 'b' are word characters and '?' is deleted. */
  lemma Example(cc: CharClasses)
    requires cc.Valid()
    requires cc.isWord('a') && cc.isWord('b') && !cc.Keeps('?')
    ensures SanitizeFilename(cc, "a b?") == "a_b"
  {
    var s := "a b?";
    assert s[1..] == " b?" && s[1..][1..] == "b?" && s[1..][1..][1..] == "?";
    assert StripUnsafe(cc, "?") == [] by { assert "?"[1..] == []; }
    assert StripUnsafe(cc, s) == "a b";
  }
}

=== FILE: wrappers.dfy ===
/** Option and Result values standing in for Python's `None` and raised exceptions. */
module Wrappers {

  datatype Option<+T> = None | Some(value: T)

  datatype Result<+T, +E> = Ok(value: T) | Err(error: E)
}
